=== FILE: README.md ===
# App cost tracker: a Dafny model of its deterministic core

The cost tracker keeps billing-usage rows, applications and tags. It answers questions
such as "what did we spend this period", "who spends most" and "which applications carry
no tag". Most of its request handlers still return fixed placeholder data. The parts with
real, deterministic behaviour are modelled and proved here:

- **Cost-period resolution** (`CostSummary`). A validated cost filter and the current
  instant become the `period_start` / `period_end` pair that `getCostSummary` reports.
  `ytd` always means January 1 of now's year through now, even when explicit bounds are
  supplied. Every other range, `custom` included, uses the supplied bounds. A missing start
  becomes January 1 and a missing end becomes now. Nothing is refused.
- **Top-contributor truncation** (`TopContributors`). `group_by` selects a fixed list.
  The list is sorted by descending spend and empty for `tag`. `slice(0, limit)` keeps a
  prefix of it.
- **Tag membership** (`TagLinks`, `UntaggedApplications`). `application_tags` is keyed by
  the (application, tag) pair, so it is a map from pair to `assigned_at`. Both handlers
  refuse a zero id and report success for any other pair. Neither handler touches the table
  yet: the model gives the table the effect their doc-comments describe. For `assignTag`
  that is an insert that keeps an existing row as it is. For `removeTag` it is a delete
  where both ids match. `getUntaggedApplications` returns three fixed applications. The
  model computes what its doc-comment describes instead: the applications whose id appears
  in no link.
- **Validation and defaulting** (`Schema`, `CreateTag`). This covers the three closed
  enums, the `#RRGGBB` colour pattern, non-empty names, and the defaults of the filter, the
  aggregation options and the top-contributors `limit`. It also covers `createTag` turning
  absent, null or empty optional fields into `null`.
- **Storage schema** (`Database`). Tables are maps keyed by their primary key. The
  `application_tags` foreign keys cascade on delete. Quantities and prices are
  `numeric(10, 4)` amounts below 10^6 in absolute value, kept as integer counts of
  10^-4 (below 10^10).

Inputs from the environment are parameters: the current instant ("now"), the
`Math.random()` draw behind a new tag's id, and the creation timestamp. Instants are
`Instant(year, offset)` pairs. `offset` counts milliseconds from local midnight of
January 1, so "January 1 of now's year" is `Instant(now.year, 0)`. Spend is kept in
integer cents and percentages in tenths of a percent.

Behaviour of the code that a reader might not expect, all of it modelled as written:

- `custom` without bounds is not refused; it becomes [January 1, now].
- `ytd` ignores explicit bounds.
- The `day`/`week`/`month`/`quarter`/`year` ranges are not expanded to calendar periods.
  They resolve exactly like `custom`.
- Only id 0 is refused; negative ids pass.
- `tag_ids` and `workspace_ids` are arrays, not sets.
- The top-contributor lists are fixed, and the filters do not influence them.

Modules: `Wrappers` (option, result, optional field), `Instants`, `Decimal` (the
`${n}` rendering of ids in messages and its inverse), `Schema`, `CostSummary`,
`TopContributors`, `TagLinks`, `UntaggedApplications`, `CreateTag`, `Database`.

## Model

| member | source | states |
|---|---|---|
| Instants.StartOfYear | server/src/handlers/get_cost_summary.ts:10 | January 1 of now's year lies in the same year, no later than now and no later than any instant of that year |
| Decimal.IntToDecimal | server/src/handlers/assign_tag.ts:21 | an id renders as a non-empty string whose first character is a minus sign exactly when the id is negative, whose other characters are all digits, and whose digits carry no leading zero |
| Decimal.IntToDecimalRoundTrip | server/src/handlers/assign_tag.ts:21 | parsing the rendering of any integer gives that integer back |
| Decimal.IntToDecimalInjective | server/src/handlers/remove_tag.ts:21 | distinct ids render as distinct strings |
| Schema.TimeRangeName | server/src/schema.ts:4 | each time range is spelled as one of the seven listed names |
| Schema.ParseTimeRange | server/src/schema.ts:4 | a string is accepted exactly when it is one of the seven names, and it parses to the value that name spells |
| Schema.AggregationName | server/src/schema.ts:5 | each aggregation period is spelled as one of the three listed names |
| Schema.ParseAggregation | server/src/schema.ts:5 | a string is accepted exactly when it is one of the three period names, and it parses to the value that name spells |
| Schema.GroupByName | server/src/schema.ts:6 | each grouping is spelled as one of the three listed names |
| Schema.ParseGroupBy | server/src/schema.ts:6 | a string is accepted exactly when it is `app`, `creator` or `tag`, and it parses to the value that name spells |
| Schema.EnumsAreClosed | server/src/schema.ts:4-6 | the enums have 7, 3 and 3 distinct names, and every value survives the round trip through its name |
| Schema.AllHexDigits | server/src/schema.ts:148 | the scan succeeds exactly when every character is 0-9, A-F or a-f |
| Schema.MatchesHexColor | server/src/schema.ts:148 | the anchored matcher accepts exactly length 7, a leading `#` and six hex digits |
| Schema.HexColorIgnoresCase | server/src/schema.ts:148 | upper-casing a string does not change whether it is an accepted colour |
| Schema.ParseCostFilters | server/src/schema.ts:75-82 | only an unknown time-range name is refused; time_range defaults to ytd and the id arrays default to empty; bounds and creator are passed through, absent when absent |
| Schema.DefaultCostFilters | server/src/schema.ts:76-81 | an empty filter object becomes ytd with no bounds, no creator, no tag ids and no workspace ids |
| Schema.ParseAggregationOptions | server/src/schema.ts:87-90 | period defaults to monthly and group_by to app; each unknown name is reported as its own issue, and no other issue is reported |
| Schema.DefaultAggregationOptions | server/src/schema.ts:88-89 | an empty options object becomes monthly grouped by app |
| Schema.ValidateCreateTagInput | server/src/schema.ts:145-149 | accepted exactly when the name is non-empty and a colour, if given as a string, is `#RRGGBB`; each failure is reported on its field, and no other issue is reported |
| Schema.ValidateCreateApplicationInput | server/src/schema.ts:136-141 | accepted exactly when name, creator and workspace_id are all non-empty; each empty one is reported, and no other issue is reported |
| Schema.ParseTopContributorsInput | server/src/schema.ts:175-179 | accepted exactly when a filters object is present and parses, group_by names a grouping and limit, if given, is a positive integer; the result's filters are the parsed filters; limit defaults to 5 and is always at least 1; a missing filters object or group_by is reported as required, an unknown group_by as an invalid enum value, and every issue of a refused filters object is reported nested under `filters`; no other issue is reported |
| CostSummary.ResolvePeriod | server/src/handlers/get_cost_summary.ts:9-19 | ytd gives [January 1 of now's year, now]; otherwise the start is start_date or January 1 and the end is end_date or now |
| CostSummary.GetCostSummary | server/src/handlers/get_cost_summary.ts:22-28 | the reported period_start and period_end are the resolved bounds |
| CostSummary.YtdPeriodIsOrdered | server/src/handlers/get_cost_summary.ts:16-19 | a ytd period never starts after it ends |
| CostSummary.YtdOverridesBounds | server/src/handlers/get_cost_summary.ts:16-19 | under ytd, supplying explicit bounds changes nothing |
| CostSummary.NonYtdRangesAgree | server/src/handlers/get_cost_summary.ts:13-16 | day, week, month, quarter, year and custom all resolve identically |
| CostSummary.CustomWithoutBoundsDefaults | server/src/handlers/get_cost_summary.ts:13-16 | custom without bounds yields [January 1, now] and is not refused |
| CostSummary.PeriodIgnoresOtherConstraints | server/src/handlers/get_cost_summary.ts:9-19 | filters that agree on range, start and end give the same summary, whatever creator, tag ids and workspace ids they carry |
| CostSummary.InvertedBoundsEchoed | server/src/handlers/get_cost_summary.ts:13-27 | a supplied start later than the supplied end is reported as given, without a check, so the reported end strictly precedes the reported start |
| TopContributors.GroupList | server/src/handlers/get_top_contributors.ts:13-29 | app and creator select five contributors, tag selects none, and every list is sorted by non-increasing spend |
| TopContributors.SlicePrefix | server/src/handlers/get_top_contributors.ts:32 | the slice is a prefix of the array; a non-negative end caps its length at the end, and a negative end counts back from the array's length |
| TopContributors.GetTopContributors | server/src/handlers/get_top_contributors.ts:8-32 | the result is a prefix of the selected list of length min(limit, list length), sorted by non-increasing spend, and empty for tag |
| TopContributors.ResultLength | server/src/handlers/get_top_contributors.ts:32 | for app and creator with a positive limit the result has min(limit, 5) entries |
| TopContributors.LargeLimitReturnsAll | server/src/handlers/get_top_contributors.ts:32 | a limit of five or more returns the whole selected list |
| TopContributors.TruncationIdempotent | server/src/handlers/get_top_contributors.ts:32 | truncating the result again to the same limit changes nothing |
| TopContributors.ResultsNestByLimit | server/src/handlers/get_top_contributors.ts:32 | the result for a smaller limit is a prefix of the result for a larger one |
| TopContributors.FiltersIgnored | server/src/handlers/get_top_contributors.ts:8 | replacing the filters does not change the result |
| TagLinks.AssignTag | server/src/handlers/assign_tag.ts:6-22 | success exactly when neither id is 0; on failure the fixed message and an unchanged table; on success a message naming both ids, and the linked pairs become the old ones plus this pair; a new row is stamped with now, and every existing row is kept as it was |
| TagLinks.RemoveTag | server/src/handlers/remove_tag.ts:6-22 | success exactly when neither id is 0; on failure the fixed message and an unchanged table; on success a message naming both ids, and the linked pairs become the old ones minus this pair, with every other row kept |
| TagLinks.AssignIdempotent | server/src/handlers/assign_tag.ts:6 | a second assignment of the same pair reports the same and leaves the same table, with the first assigned_at |
| TagLinks.AssignExistingIsNoop | server/src/handlers/assign_tag.ts:6-22 | assigning a pair that is already linked succeeds and leaves the table unchanged |
| TagLinks.RemoveIdempotent | server/src/handlers/remove_tag.ts:6-22 | removing twice is the same as removing once |
| TagLinks.RemoveMissingIsNoop | server/src/handlers/remove_tag.ts:18-22 | removing a pair that is not linked succeeds and leaves the table unchanged |
| TagLinks.RemoveSparesPartialMatches | server/src/handlers/remove_tag.ts:6 | a link that shares only the application or only the tag survives the removal |
| TagLinks.AssignThenRemoveRestores | server/src/handlers/remove_tag.ts:6 | assigning a pair that was not linked and then removing it restores the original table |
| TagLinks.NegativeIdsAccepted | server/src/handlers/assign_tag.ts:11 | for any two negative ids, both handlers report success and the assignment links the pair |
| TagLinks.AssignedMessageNamesBothIds | server/src/handlers/assign_tag.ts:21 | equal assignment messages come from equal id pairs, so both ids are recoverable |
| TagLinks.RemovedMessageNamesBothIds | server/src/handlers/remove_tag.ts:21 | equal removal messages come from equal id pairs, so both ids are recoverable |
| UntaggedApplications.GetUntaggedApplications | server/src/handlers/get_untagged_applications.ts:3-7 | no reported application has a link, every unlinked application is reported, and each entry is an application's id, name, creator and workspace_id |
| UntaggedApplications.UntaggedDistributes | server/src/handlers/get_untagged_applications.ts:5-6 | the result filters the table in its own order: splitting the table splits the result the same way |
| UntaggedApplications.UntaggedMembership | server/src/handlers/get_untagged_applications.ts:5-6 | an application of the table is reported if and only if its id has no link |
| UntaggedApplications.UntaggedIdsAreDifference | server/src/handlers/get_untagged_applications.ts:5-6 | the reported ids are exactly all application ids minus the linked ones |
| UntaggedApplications.AssignTagsTheApplication | server/src/handlers/get_untagged_applications.ts:5-6 | after a successful assignment the assigned application is no longer reported, and every other application keeps its status |
| UntaggedApplications.UntaggedOfDatabase | server/src/db/schema.ts:43-49 | over a valid database listed in any order, every linked id is an application, and the untagged ids are the application keys minus the linked ones |
| CreateTag.OrNull | server/src/handlers/create_tag.ts:12-13 | an absent, null or empty string becomes null; any other string is kept |
| CreateTag.DrawId | server/src/handlers/create_tag.ts:10 | the id is the floor of the draw times 1000, and lies in [0, 999] |
| CreateTag.EveryIdReachable | server/src/handlers/create_tag.ts:10 | every id from 0 to 999 is produced by some draw |
| CreateTag.CreateTag | server/src/handlers/create_tag.ts:9-15 | the tag has the input name, an id in [0, 999], and description and colour that are null when absent, null or empty and the input value otherwise |
| CreateTag.ValidatedInputGivesValidTag | server/src/schema.ts:145-149 | for an accepted input the tag's name is non-empty and its colour is null or exactly the `#RRGGBB` string supplied |
| Database.ToUnits | server/src/db/schema.ts:15-16 | a decimal with at most four places is scaled exactly; a longer one goes to the nearest 10^-4 unit, with halves rounded away from zero |
| Database.StoreNumeric | server/src/db/schema.ts:15-16 | a value is stored exactly when its rounded form is below 10^6 in absolute value; otherwise numeric overflow |
| Database.HalvesRoundAwayFromZero | server/src/db/schema.ts:15-16 | 0.00005 rounds to 0.0001, -0.00005 to -0.0001, and 0.00004 and -0.00004 to 0 |
| Database.StoreNumericExactAtScale4 | server/src/db/schema.ts:15-16 | an amount already at four places that fits is stored unchanged |
| Database.InsertApplication | server/src/db/schema.ts:24 | a row is refused exactly when its id is already used; otherwise it is added under its id, nothing else changes and validity is kept |
| Database.InsertTag | server/src/db/schema.ts:35 | a tag is refused exactly when its id is already used; otherwise it is added under its id, nothing else changes and validity is kept |
| Database.InsertUsage | server/src/db/schema.ts:9-16 | both amounts are rounded to numeric(10, 4) and an overflow is refused first; then a used id is refused; otherwise the row is added with the rounded amounts and validity is kept |
| Database.DeleteApplication | server/src/db/schema.ts:44 | deleting an application removes exactly the links naming it, leaves every other row as it was and keeps every link resolvable |
| Database.DeleteTag | server/src/db/schema.ts:45 | deleting a tag removes exactly the links naming it, leaves every other row as it was and keeps every link resolvable |
| Database.AssignTagKeepsLinksResolved | server/src/db/schema.ts:43-49 | assigning an existing tag to an existing application keeps every key and foreign key valid |
| Database.RemoveTagKeepsLinksResolved | server/src/db/schema.ts:43-49 | a removal never breaks a key or foreign key |

## Left out

- Spend figures: `total_spend`, `forecasted_spend`, `average_spend` and the contributors' `spend` and `percentage` are fixed placeholders in the handlers. The model carries these constants but proves nothing about sums, forecasts or percentages. An untagged application's `total_spend` and `last_activity` are dropped entirely: the usage table has no application column to join on.
- `getCostTrends`: its values come from a random number generator, and its bucketing exists only as a comment.
- `getTags`, `getApplications`, `getCreators` and `getRecommendations`: each returns a constant list with no logic.
- The todo handlers, the RPC router, the HTTP server and the web client: they are not part of the cost-tracking logic.
- Date coercion, time zones and reading the clock: instants are abstract and "now" is a parameter.
- Decimal.IntToDecimal: covers integers only. JavaScript prints non-integer ids with a fractional part, and integers of magnitude 10^21 or more in exponent notation; neither is modelled.
- TagLinks.AssignTag: the handler does not write to `application_tags`. The insert, ignoring a duplicate, comes from its doc-comment; success and message follow the code.
- TagLinks.RemoveTag: the handler does not write to `application_tags`. The delete where both ids match comes from its doc-comment; success and message follow the code.
- TagLinks.AssignTag: ids are integers, although the input schema accepts any number. The handler does not check that the application and tag exist. A storage-level foreign-key rejection of a dangling pair is not modelled, so link integrity is proved only for existing ids.
- UntaggedApplications.GetUntaggedApplications: the handler returns three fixed applications (ids 15, 23 and 31). The model computes the filter its doc-comment describes instead. The handler ignores the optional filter, and its doc-comment does not say what the filter restricts; it is not modelled. Keeping the table's order, which UntaggedDistributes states, is a choice of the model: the doc-commented join promises no order.
- Database.InsertApplication: `serial` id generation is not modelled; the row carries its id. The same applies to Database.InsertTag. Column defaults such as `created_at` are taken from the row.
- The `recommendations` table and its `numeric(10, 2)` column.

=== FILE: cost_summary.dfy ===
/** `getCostSummary` (server/src/handlers/get_cost_summary.ts): resolving a filter and the
    current instant into the reported period. The spend figures it returns are fixed
    placeholder amounts, kept here in cents. */
module CostSummary {
  import opened Wrappers
  import opened Instants
  import opened Schema

  datatype Period = Period(start: Instant, end: Instant)

  datatype Summary = Summary(
    total_spend: int,
    forecasted_spend: int,
    average_spend: int,
    period_start: Instant,
    period_end: Instant)

  /** `ytd` always means January 1 of now's year through now, whatever bounds were
      supplied. Every other range uses the supplied bounds, with January 1 and now
      standing in for a missing start and a missing end. */
  function ResolvePeriod(f: CostFilters, now: Instant): (p: Period)
    ensures f.time_range == Ytd ==> p == Period(Instant(now.year, 0), now)
    ensures f.time_range != Ytd && f.start_date.Some? ==> p.start == f.start_date.value
    ensures f.time_range != Ytd && f.start_date.None? ==> p.start == Instant(now.year, 0)
    ensures f.time_range != Ytd && f.end_date.Some? ==> p.end == f.end_date.value
    ensures f.time_range != Ytd && f.end_date.None? ==> p.end == now
  {
    var defaulted := Period(f.start_date.GetOr(StartOfYear(now)), f.end_date.GetOr(now));
    if f.time_range == Ytd then Period(StartOfYear(now), now) else defaulted
  }

  /** The handler: the resolved bounds are echoed as `period_start` and `period_end`. */
  function GetCostSummary(f: CostFilters, now: Instant): (s: Summary)
    ensures s.period_start == ResolvePeriod(f, now).start
    ensures s.period_end == ResolvePeriod(f, now).end
  {
    var p := ResolvePeriod(f, now);
    Summary(1543050, 1820000, 128600, p.start, p.end)
  }

  /** A year-to-date period never runs backwards. */
  lemma YtdPeriodIsOrdered(f: CostFilters, now: Instant)
    requires f.time_range == Ytd
    ensures AtOrBefore(ResolvePeriod(f, now).start, ResolvePeriod(f, now).end)
  {
  }

  /** Explicit bounds are ignored under `ytd`. */
  lemma YtdOverridesBounds(f: CostFilters, now: Instant, start: Instant, end: Instant)
    requires f.time_range == Ytd
    ensures ResolvePeriod(f.(start_date := Some(start), end_date := Some(end)), now) == ResolvePeriod(f, now)
  {
  }

  /** The named ranges other than `ytd`, `custom` included, all resolve the same way. */
  lemma NonYtdRangesAgree(f: CostFilters, now: Instant, t: TimeRange)
    requires f.time_range != Ytd && t != Ytd
    ensures ResolvePeriod(f.(time_range := t), now) == ResolvePeriod(f, now)
  {
  }

  /** `custom` without bounds is not refused: it quietly becomes January 1 through now. */
  lemma CustomWithoutBoundsDefaults(f: CostFilters, now: Instant)
    requires f.time_range == Custom && f.start_date.None? && f.end_date.None?
    ensures ResolvePeriod(f, now) == Period(StartOfYear(now), now)
  {
  }

  /** The period depends only on the range, the two bounds and now. */
  lemma PeriodIgnoresOtherConstraints(f: CostFilters, g: CostFilters, now: Instant)
    requires f.time_range == g.time_range && f.start_date == g.start_date && f.end_date == g.end_date
    ensures GetCostSummary(f, now) == GetCostSummary(g, now)
  {
  }

  /** Supplied bounds are passed through unchecked: a start after the end is reported
      as given. */
  lemma InvertedBoundsEchoed(f: CostFilters, now: Instant)
    requires f.time_range != Ytd && f.start_date.Some? && f.end_date.Some?
    requires !AtOrBefore(f.start_date.value, f.end_date.value)
    ensures !AtOrBefore(GetCostSummary(f, now).period_start, GetCostSummary(f, now).period_end)
    ensures AtOrBefore(GetCostSummary(f, now).period_end, GetCostSummary(f, now).period_start)
    ensures GetCostSummary(f, now).period_end != GetCostSummary(f, now).period_start
  {
    var s := GetCostSummary(f, now);
    AtOrBeforeIsTotalOrder(s.period_start, s.period_end, s.period_end);
  }
}

=== FILE: create_tag.dfy ===
/** `createTag` (server/src/handlers/create_tag.ts): the returned tag, with its id drawn
    from `Math.random()` and its timestamp taken from the clock, both passed in here. */
module CreateTag {
  import opened Wrappers
  import opened Instants
  import opened Schema

  /** `value || null` for an optional string: undefined, null and the empty string all
      become null. */
  function OrNull(f: Field<string>): (r: Option<string>)
    ensures r.None? <==> f.Absent? || f.Null? || f.value == ""
    ensures r.Some? ==> f == Present(r.value)
  {
    match f
    case Present(s) => if s == "" then None else Some(s)
    case _ => None
  }

  /** `Math.floor(random * 1000)` for a draw `random` in [0, 1). */
  function DrawId(random: real): (id: int)
    requires 0.0 <= random < 1.0
    ensures 0 <= id <= 999
    ensures id as real <= random * 1000.0 < id as real + 1.0
  {
    (random * 1000.0).Floor
  }

  function CreateTag(input: CreateTagInput, random: real, now: Instant): (t: Tag)
    requires 0.0 <= random < 1.0
    ensures 0 <= t.id <= 999
    ensures t.name == input.name
    ensures t.description.None? <==> input.description.Absent? || input.description.Null? || input.description.value == ""
    ensures t.description.Some? ==> input.description == Present(t.description.value)
    ensures t.color.None? <==> input.color.Absent? || input.color.Null? || input.color.value == ""
    ensures t.color.Some? ==> input.color == Present(t.color.value)
    ensures t.created_at == now
  {
    Tag(DrawId(random), input.name, OrNull(input.description), OrNull(input.color), now)
  }

  /** Every id from 0 to 999 is a possible outcome of the draw. */
  lemma EveryIdReachable(k: int)
    requires 0 <= k <= 999
    ensures DrawId(k as real / 1000.0) == k
  {
  }

  /** For an input the schema accepted, the tag has a non-empty name and a colour that is
      either null or `#RRGGBB`, given exactly as the caller wrote it. */
  lemma ValidatedInputGivesValidTag(input: CreateTagInput, random: real, now: Instant)
    requires ValidateCreateTagInput(input).Ok?
    requires 0.0 <= random < 1.0
    ensures NonEmpty(CreateTag(input, random, now).name)
    ensures CreateTag(input, random, now).color.Some? ==> IsHexColor(CreateTag(input, random, now).color.value)
    ensures input.color.Present? ==> CreateTag(input, random, now).color == Some(input.color.value)
  {
  }
}

=== FILE: database.dfy ===
/** The storage schema (server/src/db/schema.ts): primary keys, the `application_tags`
    foreign keys with their cascading deletes, and the `numeric(10, 4)` amount columns. Each
    table is a map from its primary key to its row, so a key names one row at most. */
module Database {
  import opened Wrappers
  import opened Instants
  import opened Schema
  import opened TagLinks

  // ---------------------------------------------------------------- numeric(10, 4)

  /** Amounts are integers counting units of 10^-4. Ten significant digits, four of them
      after the point, leave an absolute value below 10^6, that is below 10^10 units. */
  const NumericLimit: int := 10_000_000_000

  predicate FitsNumeric(units: int) {
    -NumericLimit < units < NumericLimit
  }

  function Pow10(n: nat): (r: int)
    ensures r >= 1
  {
    if n == 0 then 1 else 10 * Pow10(n - 1)
  }

  /** `m / p` rounded to the nearest integer, a half rounded up: the only `q` with
      `-p < 2 (q p - m) <= p`. */
  function RoundHalfUp(m: int, p: int): (q: int)
    requires m >= 0 && p >= 1
    ensures q >= 0
    ensures -p < 2 * (q * p - m) <= p
  {
    var d, rem := m / p, m % p;
    assert m == d * p + rem;
    if 2 * rem >= p then
      assert (d + 1) * p == d * p + p;
      d + 1
    else
      d
  }

  /** A decimal written as `mantissa × 10^-scale`, in units of 10^-4: exact when it has four
      places or fewer, otherwise the nearest unit, with a half rounded away from zero. */
  function ToUnits(mantissa: int, scale: nat): (units: int)
    ensures scale <= 4 ==> units == mantissa * Pow10(4 - scale)
    ensures scale > 4 && mantissa >= 0 ==> -Pow10(scale - 4) < 2 * (units * Pow10(scale - 4) - mantissa) <= Pow10(scale - 4)
    ensures scale > 4 && mantissa < 0 ==> -Pow10(scale - 4) <= 2 * (units * Pow10(scale - 4) - mantissa) < Pow10(scale - 4)
  {
    if scale <= 4 then mantissa * Pow10(4 - scale)
    else
      var p := Pow10(scale - 4);
      if mantissa >= 0 then RoundHalfUp(mantissa, p)
      else
        var q := RoundHalfUp(-mantissa, p);
        assert (-q) * p == -(q * p);
        -q
  }

  datatype DbError = DuplicateKey | NumericOverflow

  /** Storing a decimal in a `numeric(10, 4)` column: rounded to four places, refused when
      the rounded value does not fit. */
  function StoreNumeric(mantissa: int, scale: nat): (r: Result<int, DbError>)
    ensures r.Ok? <==> FitsNumeric(ToUnits(mantissa, scale))
    ensures r.Ok? ==> r.value == ToUnits(mantissa, scale)
    ensures r.Err? ==> r.error == NumericOverflow
  {
    var units := ToUnits(mantissa, scale);
    if -NumericLimit < units < NumericLimit then Ok(units) else Err(NumericOverflow)
  }

  /** At the fifth place, a half goes away from zero and less than a half goes to zero. */
  lemma HalvesRoundAwayFromZero()
    ensures ToUnits(5, 5) == 1 && ToUnits(-5, 5) == -1
    ensures ToUnits(4, 5) == 0 && ToUnits(-4, 5) == 0
  {
  }

  /** A value already at four places is stored unchanged. */
  lemma StoreNumericExactAtScale4(units: int)
    requires FitsNumeric(units)
    ensures StoreNumeric(units, 4) == Ok(units)
  {
  }

  // ---------------------------------------------------------------- tables

  /** One `billing_usage` row; quantity and unit price in units of 10^-4. */
  datatype BillingUsage = BillingUsage(
    id: string,
    workspace_id: string,
    sku_name: string,
    cloud: string,
    usage_date: Instant,
    usage_unit: string,
    usage_quantity: int,
    pricing_unit_price: int,
    usage_metadata: Option<map<string, string>>,
    created_at: Instant,
    updated_at: Instant)

  datatype Db = Db(
    billing_usage: map<string, BillingUsage>,
    applications: map<int, Application>,
    tags: map<int, Tag>,
    application_tags: LinkTable)

  /** Each row sits under its own primary key. */
  predicate KeysAreIds(db: Db) {
    && (forall k :: k in db.billing_usage ==> db.billing_usage[k].id == k)
    && (forall k :: k in db.applications ==> db.applications[k].id == k)
    && (forall k :: k in db.tags ==> db.tags[k].id == k)
  }

  /** Every link names an existing application and an existing tag. */
  predicate LinksResolve(db: Db) {
    forall l :: l in db.application_tags ==> l.application_id in db.applications && l.tag_id in db.tags
  }

  predicate AmountsFit(db: Db) {
    forall k :: k in db.billing_usage ==>
      FitsNumeric(db.billing_usage[k].usage_quantity) && FitsNumeric(db.billing_usage[k].pricing_unit_price)
  }

  predicate Valid(db: Db) {
    KeysAreIds(db) && LinksResolve(db) && AmountsFit(db)
  }

  // ---------------------------------------------------------------- inserts

  /** A second row with a used primary key is refused. */
  function InsertApplication(db: Db, a: Application): (r: Result<Db, DbError>)
    ensures r.Ok? <==> a.id !in db.applications
    ensures r.Err? ==> r.error == DuplicateKey
    ensures r.Ok? ==> a.id in r.value.applications && r.value.applications[a.id] == a
    ensures r.Ok? ==> r.value.applications.Keys == db.applications.Keys + {a.id}
    ensures r.Ok? ==> r.value.(applications := db.applications) == db
    ensures r.Ok? && Valid(db) ==> Valid(r.value)
  {
    if a.id in db.applications then Err(DuplicateKey)
    else Ok(db.(applications := db.applications[a.id := a]))
  }

  function InsertTag(db: Db, t: Tag): (r: Result<Db, DbError>)
    ensures r.Ok? <==> t.id !in db.tags
    ensures r.Err? ==> r.error == DuplicateKey
    ensures r.Ok? ==> t.id in r.value.tags && r.value.tags[t.id] == t
    ensures r.Ok? ==> r.value.tags.Keys == db.tags.Keys + {t.id}
    ensures r.Ok? ==> r.value.(tags := db.tags) == db
    ensures r.Ok? && Valid(db) ==> Valid(r.value)
  {
    if t.id in db.tags then Err(DuplicateKey)
    else Ok(db.(tags := db.tags[t.id := t]))
  }

  /** A decimal as written by the caller: `mantissa × 10^-scale`. */
  datatype DecimalValue = DecimalValue(mantissa: int, scale: nat)

  /** A usage row before storage, its two amounts still as written. */
  datatype NewBillingUsage = NewBillingUsage(
    id: string,
    workspace_id: string,
    sku_name: string,
    cloud: string,
    usage_date: Instant,
    usage_unit: string,
    usage_quantity: DecimalValue,
    pricing_unit_price: DecimalValue,
    usage_metadata: Option<map<string, string>>,
    created_at: Instant,
    updated_at: Instant)

  function Store(d: DecimalValue): Result<int, DbError> {
    StoreNumeric(d.mantissa, d.scale)
  }

  /** Inserting a usage row: both amounts are converted to `numeric(10, 4)` first, so an
      amount that does not fit is refused as an overflow even when the id is also taken;
      only then is a used id refused. The stored amounts are the rounded ones. */
  function InsertUsage(db: Db, u: NewBillingUsage): (r: Result<Db, DbError>)
    ensures r.Ok? <==> Store(u.usage_quantity).Ok? && Store(u.pricing_unit_price).Ok? && u.id !in db.billing_usage
    ensures Store(u.usage_quantity).Err? || Store(u.pricing_unit_price).Err? ==> r == Err(NumericOverflow)
    ensures Store(u.usage_quantity).Ok? && Store(u.pricing_unit_price).Ok? && u.id in db.billing_usage ==> r == Err(DuplicateKey)
    ensures r.Ok? ==> r.value.billing_usage.Keys == db.billing_usage.Keys + {u.id}
    ensures r.Ok? ==> r.value.billing_usage[u.id]
                      == BillingUsage(u.id, u.workspace_id, u.sku_name, u.cloud, u.usage_date, u.usage_unit,
                                      ToUnits(u.usage_quantity.mantissa, u.usage_quantity.scale),
                                      ToUnits(u.pricing_unit_price.mantissa, u.pricing_unit_price.scale),
                                      u.usage_metadata, u.created_at, u.updated_at)
    ensures r.Ok? ==> r.value.(billing_usage := db.billing_usage) == db
    ensures r.Ok? && Valid(db) ==> Valid(r.value)
  {
    var quantity := Store(u.usage_quantity);
    var price := Store(u.pricing_unit_price);
    if quantity.Err? || price.Err? then Err(NumericOverflow)
    else if u.id in db.billing_usage then Err(DuplicateKey)
    else
      var row := BillingUsage(u.id, u.workspace_id, u.sku_name, u.cloud, u.usage_date, u.usage_unit,
                              quantity.value, price.value, u.usage_metadata, u.created_at, u.updated_at);
      Ok(db.(billing_usage := db.billing_usage[u.id := row]))
  }

  // ---------------------------------------------------------------- cascading deletes

  /** Deleting an application deletes exactly the links that name it. */
  function DeleteApplication(db: Db, id: int): (r: Db)
    ensures r.applications.Keys == db.applications.Keys - {id}
    ensures forall k :: k in r.applications ==> r.applications[k] == db.applications[k]
    ensures forall l :: l in r.application_tags <==> l in db.application_tags && l.application_id != id
    ensures forall l :: l in r.application_tags ==> r.application_tags[l] == db.application_tags[l]
    ensures r.tags == db.tags && r.billing_usage == db.billing_usage
    ensures Valid(db) ==> Valid(r)
  {
    Db(db.billing_usage,
       db.applications - {id},
       db.tags,
       map l | l in db.application_tags && l.application_id != id :: db.application_tags[l])
  }

  /** Deleting a tag deletes exactly the links that name it. */
  function DeleteTag(db: Db, id: int): (r: Db)
    ensures r.tags.Keys == db.tags.Keys - {id}
    ensures forall k :: k in r.tags ==> r.tags[k] == db.tags[k]
    ensures forall l :: l in r.application_tags <==> l in db.application_tags && l.tag_id != id
    ensures forall l :: l in r.application_tags ==> r.application_tags[l] == db.application_tags[l]
    ensures r.applications == db.applications && r.billing_usage == db.billing_usage
    ensures Valid(db) ==> Valid(r)
  {
    Db(db.billing_usage,
       db.applications,
       db.tags - {id},
       map l | l in db.application_tags && l.tag_id != id :: db.application_tags[l])
  }

  // ---------------------------------------------------------------- link mutations

  /** An assignment between an existing application and an existing tag keeps the
      foreign keys intact. */
  lemma AssignTagKeepsLinksResolved(db: Db, app: int, tag: int, now: Instant)
    requires Valid(db)
    requires app in db.applications && tag in db.tags
    ensures Valid(db.(application_tags := AssignTag(db.application_tags, app, tag, now).links))
  {
  }

  /** A removal never breaks a foreign key. */
  lemma RemoveTagKeepsLinksResolved(db: Db, app: int, tag: int)
    requires Valid(db)
    ensures Valid(db.(application_tags := RemoveTag(db.application_tags, app, tag).links))
  {
  }
}

=== FILE: decimal.dfy ===
/** Decimal rendering of integer ids, as a JavaScript template literal `${n}` prints an
    integer-valued number, and the matching parse that shows the rendering loses nothing. */
module Decimal {
  import opened Wrappers

  predicate IsDigit(c: char) {
    '0' <= c <= '9'
  }

  predicate AllDigits(s: string) {
    forall i :: 0 <= i < |s| ==> IsDigit(s[i])
  }

  function DigitChar(d: nat): (c: char)
    requires d < 10
    ensures IsDigit(c)
    ensures c as int - '0' as int == d
  {
    ['0', '1', '2', '3', '4', '5', '6', '7', '8', '9'][d]
  }

  function DigitValue(c: char): nat
    requires IsDigit(c)
  {
    c as int - '0' as int
  }

  /** Most significant digit first, no leading zeros, "0" for zero. */
  function NatToDecimal(n: nat): (s: string)
    ensures |s| > 0 && AllDigits(s)
    ensures |s| > 1 ==> s[0] != '0'
    ensures n > 0 ==> s[0] != '0'
  {
    if n < 10 then [DigitChar(n)] else NatToDecimal(n / 10) + [DigitChar(n % 10)]
  }

  /** The rendering of any integer: a minus sign in front of a negative value. */
  function IntToDecimal(n: int): (s: string)
    ensures |s| > 0
    ensures forall i :: 0 <= i < |s| ==> IsDigit(s[i]) || s[i] == '-'
    ensures n < 0 <==> s[0] == '-'
    ensures forall i :: 0 < i < |s| ==> IsDigit(s[i])
    ensures n < 0 ==> |s| > 1 && s[1] != '0'
    ensures n >= 0 && |s| > 1 ==> s[0] != '0'
  {
    if n < 0 then "-" + NatToDecimal(-n) else NatToDecimal(n)
  }

  /** The value of a string of decimal digits. */
  function DigitsValue(s: string): nat
    requires AllDigits(s)
  {
    if |s| == 0 then 0 else DigitsValue(s[..|s| - 1]) * 10 + DigitValue(s[|s| - 1])
  }

  /** Reads back an optionally signed decimal integer; `None` for anything else. */
  function ParseDecimal(s: string): Option<int> {
    if |s| > 1 && s[0] == '-' && AllDigits(s[1..]) then Some(-(DigitsValue(s[1..]) as int))
    else if |s| > 0 && AllDigits(s) then Some(DigitsValue(s))
    else None
  }

  lemma {:induction false} NatToDecimalRoundTrip(n: nat)
    ensures DigitsValue(NatToDecimal(n)) == n
  {
    if n >= 10 {
      var prefix := NatToDecimal(n / 10);
      var s := prefix + [DigitChar(n % 10)];
      assert s[..|s| - 1] == prefix;
      NatToDecimalRoundTrip(n / 10);
    }
  }

  /** Every integer is recovered from its rendering. */
  lemma IntToDecimalRoundTrip(n: int)
    ensures ParseDecimal(IntToDecimal(n)) == Some(n)
  {
    if n < 0 {
      var d := NatToDecimal(-n);
      var s := "-" + d;
      assert s == IntToDecimal(n);
      assert s[1..] == d;
      NatToDecimalRoundTrip(-n);
      assert ParseDecimal(s) == Some(-(DigitsValue(d) as int));
    } else {
      var d := NatToDecimal(n);
      assert d == IntToDecimal(n);
      assert IsDigit(d[0]);
      NatToDecimalRoundTrip(n);
      assert ParseDecimal(d) == Some(DigitsValue(d));
    }
  }

  /** Distinct integers render differently. */
  lemma IntToDecimalInjective(m: int, n: int)
    ensures IntToDecimal(m) == IntToDecimal(n) ==> m == n
  {
    IntToDecimalRoundTrip(m);
    IntToDecimalRoundTrip(n);
  }
}

=== FILE: instants.dfy ===
/** Points in time, abstracted to a calendar year and an offset from the start of that
    year. The handlers only ever build "January 1 of now's year" and compare or echo
    instants, so this is all of the calendar they need. */
module Instants {

  /** `offset` counts milliseconds since local midnight of January 1 of `year`. Offsets
      past the length of the year are not excluded; no property here depends on them. */
  datatype Instant = Instant(year: int, offset: nat)

  /** Chronological order: by year, then by offset within the year. */
  predicate AtOrBefore(a: Instant, b: Instant) {
    a.year < b.year || (a.year == b.year && a.offset <= b.offset)
  }

  /** `new Date(t.getFullYear(), 0, 1)`: local midnight of January 1 in `t`'s year. */
  function StartOfYear(t: Instant): (r: Instant)
    ensures r.year == t.year
    ensures AtOrBefore(r, t)
    ensures forall u: Instant :: u.year == t.year ==> AtOrBefore(r, u)
  {
    Instant(t.year, 0)
  }

  /** Chronological order is a total order on instants. */
  lemma AtOrBeforeIsTotalOrder(a: Instant, b: Instant, c: Instant)
    ensures AtOrBefore(a, a)
    ensures AtOrBefore(a, b) || AtOrBefore(b, a)
    ensures AtOrBefore(a, b) && AtOrBefore(b, a) ==> a == b
    ensures AtOrBefore(a, b) && AtOrBefore(b, c) ==> AtOrBefore(a, c)
  {
  }
}

=== FILE: schema.dfy ===
/** The input and entity schemas of the server (`server/src/schema.ts`): the three closed
    enums, the row shapes, and the validating parsers with their defaults. Each parser
    returns either the typed value or every issue it found, as the schema library does. */
module Schema {
  import opened Wrappers
  import opened Instants

  // ---------------------------------------------------------------- closed enums

  datatype TimeRange = Day | Week | Month | Quarter | Year | Ytd | Custom
  datatype Aggregation = Daily | Weekly | Monthly
  datatype GroupBy = ByApp | ByCreator | ByTag

  const TimeRangeNames: seq<string> := ["day", "week", "month", "quarter", "year", "ytd", "custom"]
  const AggregationNames: seq<string> := ["daily", "weekly", "monthly"]
  const GroupByNames: seq<string> := ["app", "creator", "tag"]

  function TimeRangeName(t: TimeRange): (s: string)
    ensures s in TimeRangeNames
  {
    match t
    case Day => "day"
    case Week => "week"
    case Month => "month"
    case Quarter => "quarter"
    case Year => "year"
    case Ytd => "ytd"
    case Custom => "custom"
  }

  /** Accepts exactly the seven listed names, and each one names the value it parses to. */
  function ParseTimeRange(s: string): (r: Option<TimeRange>)
    ensures r.Some? <==> s in TimeRangeNames
    ensures r.Some? ==> TimeRangeName(r.value) == s
  {
    if s == "day" then Some(Day)
    else if s == "week" then Some(Week)
    else if s == "month" then Some(Month)
    else if s == "quarter" then Some(Quarter)
    else if s == "year" then Some(Year)
    else if s == "ytd" then Some(Ytd)
    else if s == "custom" then Some(Custom)
    else None
  }

  function AggregationName(a: Aggregation): (s: string)
    ensures s in AggregationNames
  {
    match a
    case Daily => "daily"
    case Weekly => "weekly"
    case Monthly => "monthly"
  }

  function ParseAggregation(s: string): (r: Option<Aggregation>)
    ensures r.Some? <==> s in AggregationNames
    ensures r.Some? ==> AggregationName(r.value) == s
  {
    if s == "daily" then Some(Daily)
    else if s == "weekly" then Some(Weekly)
    else if s == "monthly" then Some(Monthly)
    else None
  }

  function GroupByName(g: GroupBy): (s: string)
    ensures s in GroupByNames
  {
    match g
    case ByApp => "app"
    case ByCreator => "creator"
    case ByTag => "tag"
  }

  function ParseGroupBy(s: string): (r: Option<GroupBy>)
    ensures r.Some? <==> s in GroupByNames
    ensures r.Some? ==> GroupByName(r.value) == s
  {
    if s == "app" then Some(ByApp)
    else if s == "creator" then Some(ByCreator)
    else if s == "tag" then Some(ByTag)
    else None
  }

  /** The enums are closed: 7, 3 and 3 distinct names, and every value survives the
      round trip through its name. */
  lemma EnumsAreClosed(t: TimeRange, a: Aggregation, g: GroupBy)
    ensures |TimeRangeNames| == 7 && |AggregationNames| == 3 && |GroupByNames| == 3
    ensures forall i, j :: 0 <= i < j < |TimeRangeNames| ==> TimeRangeNames[i] != TimeRangeNames[j]
    ensures forall i, j :: 0 <= i < j < |AggregationNames| ==> AggregationNames[i] != AggregationNames[j]
    ensures forall i, j :: 0 <= i < j < |GroupByNames| ==> GroupByNames[i] != GroupByNames[j]
    ensures ParseTimeRange(TimeRangeName(t)) == Some(t)
    ensures ParseAggregation(AggregationName(a)) == Some(a)
    ensures ParseGroupBy(GroupByName(g)) == Some(g)
  {
  }

  // ---------------------------------------------------------------- entities

  datatype Application = Application(
    id: int,
    name: string,
    description: Option<string>,
    creator: string,
    workspace_id: string,
    created_at: Instant,
    updated_at: Instant)

  datatype Tag = Tag(
    id: int,
    name: string,
    description: Option<string>,
    color: Option<string>,
    created_at: Instant)

  // ---------------------------------------------------------------- issues

  datatype IssueCode = InvalidEnumValue | Required | TooSmall | InvalidString | NotInteger

  /** One validation failure, located by its path of field names. */
  datatype Issue = Issue(path: seq<string>, code: IssueCode)

  function Nest(field: string, issues: seq<Issue>): (r: seq<Issue>)
    ensures |r| == |issues|
    ensures forall i :: 0 <= i < |r| ==> r[i] == Issue([field] + issues[i].path, issues[i].code)
  {
    seq(|issues|, i requires 0 <= i < |issues| => Issue([field] + issues[i].path, issues[i].code))
  }

  // ---------------------------------------------------------------- string checks

  /** `z.string().min(1)`. */
  predicate NonEmpty(s: string) {
    |s| >= 1
  }

  predicate IsHexDigit(c: char) {
    '0' <= c <= '9' || 'A' <= c <= 'F' || 'a' <= c <= 'f'
  }

  /** The language of `/^#[0-9A-Fa-f]{6}$/`: a hash sign and exactly six hex digits. */
  predicate IsHexColor(s: string) {
    |s| == 7 && s[0] == '#' && forall i :: 1 <= i < 7 ==> IsHexDigit(s[i])
  }

  /** Scans a string for hex digits only. */
  function AllHexDigits(s: string): (r: bool)
    ensures r <==> forall i :: 0 <= i < |s| ==> IsHexDigit(s[i])
  {
    if |s| == 0 then true
    else IsHexDigit(s[0]) && AllHexDigits(s[1..])
  }

  /** The matcher the colour field runs: anchored at both ends, so nothing may precede the
      hash sign or follow the sixth digit. */
  function MatchesHexColor(s: string): (r: bool)
    ensures r <==> IsHexColor(s)
  {
    |s| == 7 && s[0] == '#' && AllHexDigits(s[1..])
  }

  function AsciiUpper(c: char): (u: char)
    ensures 'a' <= c <= 'z' ==> u as int == c as int - 32
    ensures !('a' <= c <= 'z') ==> u == c
  {
    if 'a' <= c <= 'z' then (c as int - 32) as char else c
  }

  /** Hex digits may be written in either case: upper-casing a string does not change
      whether it is a colour. */
  lemma HexColorIgnoresCase(s: string)
    ensures IsHexColor(s) <==> IsHexColor(seq(|s|, i requires 0 <= i < |s| => AsciiUpper(s[i])))
  {
    var u := seq(|s|, i requires 0 <= i < |s| => AsciiUpper(s[i]));
    assert forall i :: 0 <= i < |s| ==> (IsHexDigit(s[i]) <==> IsHexDigit(u[i]));
  }

  // ---------------------------------------------------------------- cost filters

  /** A validated filter. `tag_ids` and `workspace_ids` are arrays; empty means "all". */
  datatype CostFilters = CostFilters(
    time_range: TimeRange,
    start_date: Option<Instant>,
    end_date: Option<Instant>,
    creator: Option<string>,
    tag_ids: seq<int>,
    workspace_ids: seq<string>)

  /** A filter as it arrives, every field possibly left out. */
  datatype RawCostFilters = RawCostFilters(
    time_range: Option<string>,
    start_date: Option<Instant>,
    end_date: Option<Instant>,
    creator: Option<string>,
    tag_ids: Option<seq<int>>,
    workspace_ids: Option<seq<string>>)

  const NoFilters := RawCostFilters(None, None, None, None, None, None)

  /** Fills in the defaults (`ytd`, no tag ids, no workspace ids); the bounds and the
      creator stay absent when absent. Only an unknown time-range name is refused. */
  function ParseCostFilters(raw: RawCostFilters): (r: Result<CostFilters, seq<Issue>>)
    ensures r.Ok? <==> raw.time_range.None? || raw.time_range.value in TimeRangeNames
    ensures r.Err? ==> r.error == [Issue(["time_range"], InvalidEnumValue)]
    ensures r.Ok? && raw.time_range.None? ==> r.value.time_range == Ytd
    ensures r.Ok? && raw.time_range.Some? ==> TimeRangeName(r.value.time_range) == raw.time_range.value
    ensures r.Ok? ==> r.value.start_date == raw.start_date && r.value.end_date == raw.end_date
    ensures r.Ok? ==> r.value.creator == raw.creator
    ensures r.Ok? && raw.tag_ids.None? ==> r.value.tag_ids == []
    ensures r.Ok? && raw.tag_ids.Some? ==> r.value.tag_ids == raw.tag_ids.value
    ensures r.Ok? && raw.workspace_ids.None? ==> r.value.workspace_ids == []
    ensures r.Ok? && raw.workspace_ids.Some? ==> r.value.workspace_ids == raw.workspace_ids.value
  {
    var timeRange := if raw.time_range.None? then Some(Ytd) else ParseTimeRange(raw.time_range.value);
    if timeRange.None? then Err([Issue(["time_range"], InvalidEnumValue)])
    else Ok(CostFilters(timeRange.value, raw.start_date, raw.end_date, raw.creator,
                        raw.tag_ids.GetOr([]), raw.workspace_ids.GetOr([])))
  }

  /** An empty filter object parses to year-to-date over everything. */
  lemma DefaultCostFilters()
    ensures ParseCostFilters(NoFilters) == Ok(CostFilters(Ytd, None, None, None, [], []))
  {
  }

  // ---------------------------------------------------------------- aggregation options

  datatype AggregationOptions = AggregationOptions(period: Aggregation, group_by: GroupBy)

  datatype RawAggregationOptions = RawAggregationOptions(period: Option<string>, group_by: Option<string>)

  /** Defaults `monthly` and `app`; each unknown name is one issue. */
  function ParseAggregationOptions(raw: RawAggregationOptions): (r: Result<AggregationOptions, seq<Issue>>)
    ensures r.Ok? <==> (raw.period.None? || raw.period.value in AggregationNames)
                       && (raw.group_by.None? || raw.group_by.value in GroupByNames)
    ensures r.Ok? && raw.period.None? ==> r.value.period == Monthly
    ensures r.Ok? && raw.period.Some? ==> AggregationName(r.value.period) == raw.period.value
    ensures r.Ok? && raw.group_by.None? ==> r.value.group_by == ByApp
    ensures r.Ok? && raw.group_by.Some? ==> GroupByName(r.value.group_by) == raw.group_by.value
    ensures r.Err? ==> (Issue(["period"], InvalidEnumValue) in r.error <==> raw.period.Some? && raw.period.value !in AggregationNames)
    ensures r.Err? ==> (Issue(["group_by"], InvalidEnumValue) in r.error <==> raw.group_by.Some? && raw.group_by.value !in GroupByNames)
    ensures r.Err? ==> forall i :: i in r.error ==> i in [Issue(["period"], InvalidEnumValue), Issue(["group_by"], InvalidEnumValue)]
  {
    var period := if raw.period.None? then Some(Monthly) else ParseAggregation(raw.period.value);
    var groupBy := if raw.group_by.None? then Some(ByApp) else ParseGroupBy(raw.group_by.value);
    if period.Some? && groupBy.Some? then Ok(AggregationOptions(period.value, groupBy.value))
    else Err((if period.None? then [Issue(["period"], InvalidEnumValue)] else [])
             + (if groupBy.None? then [Issue(["group_by"], InvalidEnumValue)] else []))
  }

  lemma DefaultAggregationOptions()
    ensures ParseAggregationOptions(RawAggregationOptions(None, None)) == Ok(AggregationOptions(Monthly, ByApp))
  {
  }

  // ---------------------------------------------------------------- mutation inputs

  datatype CreateTagInput = CreateTagInput(name: string, description: Field<string>, color: Field<string>)

  /** A tag needs a non-empty name; a colour, when given as a string, must be `#RRGGBB`. */
  function ValidateCreateTagInput(input: CreateTagInput): (r: Result<CreateTagInput, seq<Issue>>)
    ensures r.Ok? <==> NonEmpty(input.name) && (input.color.Present? ==> IsHexColor(input.color.value))
    ensures r.Ok? ==> r.value == input
    ensures r.Err? ==> (Issue(["name"], TooSmall) in r.error <==> !NonEmpty(input.name))
    ensures r.Err? ==> (Issue(["color"], InvalidString) in r.error <==> input.color.Present? && !IsHexColor(input.color.value))
    ensures r.Err? ==> forall i :: i in r.error ==> i in [Issue(["name"], TooSmall), Issue(["color"], InvalidString)]
  {
    var issues := (if |input.name| < 1 then [Issue(["name"], TooSmall)] else [])
                  + (if input.color.Present? && !MatchesHexColor(input.color.value) then [Issue(["color"], InvalidString)] else []);
    if |issues| == 0 then Ok(input) else Err(issues)
  }

  datatype CreateApplicationInput = CreateApplicationInput(
    name: string,
    description: Field<string>,
    creator: string,
    workspace_id: string)

  /** Name, creator and workspace id must each be non-empty; the description is free. */
  function ValidateCreateApplicationInput(input: CreateApplicationInput): (r: Result<CreateApplicationInput, seq<Issue>>)
    ensures r.Ok? <==> NonEmpty(input.name) && NonEmpty(input.creator) && NonEmpty(input.workspace_id)
    ensures r.Ok? ==> r.value == input
    ensures r.Err? ==> (Issue(["name"], TooSmall) in r.error <==> !NonEmpty(input.name))
    ensures r.Err? ==> (Issue(["creator"], TooSmall) in r.error <==> !NonEmpty(input.creator))
    ensures r.Err? ==> (Issue(["workspace_id"], TooSmall) in r.error <==> !NonEmpty(input.workspace_id))
    ensures r.Err? ==> forall i :: i in r.error ==> i in [Issue(["name"], TooSmall), Issue(["creator"], TooSmall), Issue(["workspace_id"], TooSmall)]
  {
    var issues := (if |input.name| < 1 then [Issue(["name"], TooSmall)] else [])
                  + (if |input.creator| < 1 then [Issue(["creator"], TooSmall)] else [])
                  + (if |input.workspace_id| < 1 then [Issue(["workspace_id"], TooSmall)] else []);
    if |issues| == 0 then Ok(input) else Err(issues)
  }

  // ---------------------------------------------------------------- top-contributors input

  datatype GetTopContributorsInput = GetTopContributorsInput(filters: CostFilters, group_by: GroupBy, limit: int)

  /** `limit` as a JavaScript number, abstracted to a real. The filter object itself has
      no default, so it may be missing. */
  datatype RawTopContributorsInput = RawTopContributorsInput(
    filters: Option<RawCostFilters>,
    group_by: Option<string>,
    limit: Option<real>)

  predicate IsIntegral(x: real) {
    x.Floor as real == x
  }

  /** The issues of a top-contributors `filters` field: required when missing, otherwise
      the filter's own issues nested under `filters`. */
  function FiltersIssues(filters: Option<RawCostFilters>): (r: seq<Issue>)
    ensures |r| == 0 <==> filters.Some? && ParseCostFilters(filters.value).Ok?
    ensures Issue(["filters"], Required) in r <==> filters.None?
    ensures filters.Some? && ParseCostFilters(filters.value).Err? ==>
              forall i :: i in Nest("filters", ParseCostFilters(filters.value).error) ==> i in r
    ensures forall i :: i in r ==>
              i == Issue(["filters"], Required)
              || (filters.Some? && ParseCostFilters(filters.value).Err?
                  && i in Nest("filters", ParseCostFilters(filters.value).error))
    ensures forall i :: i in r ==> |i.path| > 0 && i.path[0] == "filters"
  {
    if filters.None? then [Issue(["filters"], Required)]
    else
      match ParseCostFilters(filters.value)
      case Ok(_) => []
      case Err(e) => Nest("filters", e)
  }

  /** The issues of a `group_by` field that has no default. */
  function GroupByIssues(group_by: Option<string>): (r: seq<Issue>)
    ensures |r| == 0 <==> group_by.Some? && group_by.value in GroupByNames
    ensures Issue(["group_by"], Required) in r <==> group_by.None?
    ensures Issue(["group_by"], InvalidEnumValue) in r <==> group_by.Some? && group_by.value !in GroupByNames
    ensures forall i :: i in r ==> i in [Issue(["group_by"], Required), Issue(["group_by"], InvalidEnumValue)]
    ensures forall i :: i in r ==> i.path == ["group_by"]
  {
    if group_by.None? then [Issue(["group_by"], Required)]
    else if ParseGroupBy(group_by.value).None? then [Issue(["group_by"], InvalidEnumValue)]
    else []
  }

  /** The issues of a `limit`: zod's `int()` and `positive()` each report on their own. */
  function LimitIssues(limit: real): (r: seq<Issue>)
    ensures |r| == 0 <==> IsIntegral(limit) && limit > 0.0
    ensures Issue(["limit"], NotInteger) in r <==> !IsIntegral(limit)
    ensures Issue(["limit"], TooSmall) in r <==> limit <= 0.0
    ensures forall i :: i in r ==> i in [Issue(["limit"], NotInteger), Issue(["limit"], TooSmall)]
    ensures forall i :: i in r ==> i.path == ["limit"]
  {
    (if !IsIntegral(limit) then [Issue(["limit"], NotInteger)] else [])
    + (if limit <= 0.0 then [Issue(["limit"], TooSmall)] else [])
  }

  /** Every issue of a top-contributors input, in field order. */
  function TopContributorsIssues(raw: RawTopContributorsInput): (r: seq<Issue>)
    ensures |r| == 0 <==> raw.filters.Some? && ParseCostFilters(raw.filters.value).Ok?
                          && raw.group_by.Some? && raw.group_by.value in GroupByNames
                          && (raw.limit.Some? ==> IsIntegral(raw.limit.value) && raw.limit.value > 0.0)
    ensures Issue(["filters"], Required) in r <==> raw.filters.None?
    ensures Issue(["group_by"], Required) in r <==> raw.group_by.None?
    ensures Issue(["group_by"], InvalidEnumValue) in r <==> raw.group_by.Some? && raw.group_by.value !in GroupByNames
    ensures raw.filters.Some? && ParseCostFilters(raw.filters.value).Err? ==>
              forall i :: i in Nest("filters", ParseCostFilters(raw.filters.value).error) ==> i in r
    ensures Issue(["limit"], NotInteger) in r <==> raw.limit.Some? && !IsIntegral(raw.limit.value)
    ensures Issue(["limit"], TooSmall) in r <==> raw.limit.Some? && raw.limit.value <= 0.0
    ensures forall i :: i in r ==>
              i == Issue(["filters"], Required) || i == Issue(["group_by"], Required)
              || i == Issue(["group_by"], InvalidEnumValue)
              || i == Issue(["limit"], NotInteger) || i == Issue(["limit"], TooSmall)
              || (raw.filters.Some? && ParseCostFilters(raw.filters.value).Err?
                  && i in Nest("filters", ParseCostFilters(raw.filters.value).error))
  {
    var filters := FiltersIssues(raw.filters);
    var groupBy := GroupByIssues(raw.group_by);
    var limit := LimitIssues(raw.limit.GetOr(5.0));
    assert forall i :: i in filters + (groupBy + limit) <==> i in filters || i in groupBy || i in limit;
    assert "filters" != "group_by" && "filters" != "limit" && "group_by" != "limit";
    filters + (groupBy + limit)
  }

  /** `filters` is required and parsed as a cost filter; `group_by` is required and has no
      default; `limit` must be a strictly positive integer and is 5 when left out. */
  function ParseTopContributorsInput(raw: RawTopContributorsInput): (r: Result<GetTopContributorsInput, seq<Issue>>)
    ensures r.Ok? <==> raw.filters.Some? && ParseCostFilters(raw.filters.value).Ok?
                       && raw.group_by.Some? && raw.group_by.value in GroupByNames
                       && (raw.limit.Some? ==> IsIntegral(raw.limit.value) && raw.limit.value > 0.0)
    ensures r.Ok? ==> ParseCostFilters(raw.filters.value) == Ok(r.value.filters)
    ensures r.Ok? ==> r.value.limit >= 1
    ensures r.Ok? && raw.limit.None? ==> r.value.limit == 5
    ensures r.Ok? && raw.limit.Some? ==> r.value.limit as real == raw.limit.value
    ensures r.Ok? ==> GroupByName(r.value.group_by) == raw.group_by.value
    ensures r.Err? ==> (Issue(["filters"], Required) in r.error <==> raw.filters.None?)
    ensures r.Err? ==> (Issue(["group_by"], Required) in r.error <==> raw.group_by.None?)
    ensures r.Err? ==> (Issue(["group_by"], InvalidEnumValue) in r.error <==> raw.group_by.Some? && raw.group_by.value !in GroupByNames)
    ensures r.Err? && raw.filters.Some? && ParseCostFilters(raw.filters.value).Err? ==>
              forall i :: i in Nest("filters", ParseCostFilters(raw.filters.value).error) ==> i in r.error
    ensures r.Err? ==> (Issue(["limit"], NotInteger) in r.error <==> raw.limit.Some? && !IsIntegral(raw.limit.value))
    ensures r.Err? ==> (Issue(["limit"], TooSmall) in r.error <==> raw.limit.Some? && raw.limit.value <= 0.0)
    ensures r.Err? ==> forall i :: i in r.error ==>
              i == Issue(["filters"], Required) || i == Issue(["group_by"], Required)
              || i == Issue(["group_by"], InvalidEnumValue)
              || i == Issue(["limit"], NotInteger) || i == Issue(["limit"], TooSmall)
              || (raw.filters.Some? && ParseCostFilters(raw.filters.value).Err?
                  && i in Nest("filters", ParseCostFilters(raw.filters.value).error))
  {
    var issues := TopContributorsIssues(raw);
    if |issues| == 0 then
      Ok(GetTopContributorsInput(ParseCostFilters(raw.filters.value).value, ParseGroupBy(raw.group_by.value).value,
                                 raw.limit.GetOr(5.0).Floor))
    else Err(issues)
  }
}

=== FILE: tag_links.dfy ===
/** `assignTag` and `removeTag` (server/src/handlers/assign_tag.ts, remove_tag.ts) over the
    `application_tags` relation. The relation is keyed by the (application, tag) pair, so it
    is a map from pair to `assigned_at`: one row per pair at most, by construction.
    Success and message follow the handlers' validation; the change to the relation is the
    one their doc-comments prescribe (insert, ignoring a duplicate; delete where both ids
    match). */
module TagLinks {
  import opened Instants
  import opened Decimal

  datatype Link = Link(application_id: int, tag_id: int)

  /** The `application_tags` table: each linked pair with its `assigned_at`. */
  type LinkTable = map<Link, Instant>

  datatype Response = Response(success: bool, message: string)

  /** What a mutation reports, and the table it leaves behind. */
  datatype Mutation = Mutation(response: Response, links: LinkTable)

  const InvalidIdsMessage := "Invalid application or tag ID"

  /** `!id` on an integer-valued number: only zero is falsy, negative ids pass. */
  predicate IsFalsy(id: int) {
    id == 0
  }

  const AssignedSeparator := " successfully assigned to application "
  const RemovedSeparator := " successfully removed from application "

  function AssignedMessage(application_id: int, tag_id: int): string {
    "Tag " + (IntToDecimal(tag_id) + (AssignedSeparator + IntToDecimal(application_id)))
  }

  function RemovedMessage(application_id: int, tag_id: int): string {
    "Tag " + (IntToDecimal(tag_id) + (RemovedSeparator + IntToDecimal(application_id)))
  }

  /** Links `application_id` to `tag_id` at `now`. A zero id is refused and nothing changes;
      an existing link is kept as it was, with its original `assigned_at`. */
  function AssignTag(links: LinkTable, application_id: int, tag_id: int, now: Instant): (m: Mutation)
    ensures m.response.success <==> application_id != 0 && tag_id != 0
    ensures !m.response.success ==> m.response.message == InvalidIdsMessage && m.links == links
    ensures m.response.success ==> m.response.message == AssignedMessage(application_id, tag_id)
    ensures m.response.success ==> m.links.Keys == links.Keys + {Link(application_id, tag_id)}
    ensures m.response.success && Link(application_id, tag_id) !in links ==> m.links[Link(application_id, tag_id)] == now
    ensures forall l :: l in links ==> l in m.links && m.links[l] == links[l]
    ensures forall l :: l in m.links && l != Link(application_id, tag_id) ==> l in links
  {
    if IsFalsy(application_id) || IsFalsy(tag_id) then
      Mutation(Response(false, InvalidIdsMessage), links)
    else
      var link := Link(application_id, tag_id);
      var links' := if link in links then links else links[link := now];
      Mutation(Response(true, AssignedMessage(application_id, tag_id)), links')
  }

  /** Unlinks `application_id` from `tag_id`. A zero id is refused and nothing changes; a
      missing link is not an error. */
  function RemoveTag(links: LinkTable, application_id: int, tag_id: int): (m: Mutation)
    ensures m.response.success <==> application_id != 0 && tag_id != 0
    ensures !m.response.success ==> m.response.message == InvalidIdsMessage && m.links == links
    ensures m.response.success ==> m.response.message == RemovedMessage(application_id, tag_id)
    ensures m.response.success ==> m.links.Keys == links.Keys - {Link(application_id, tag_id)}
    ensures forall l :: l in m.links ==> l in links && m.links[l] == links[l]
    ensures forall l :: l in links && l != Link(application_id, tag_id) ==> l in m.links
  {
    if IsFalsy(application_id) || IsFalsy(tag_id) then
      Mutation(Response(false, InvalidIdsMessage), links)
    else
      Mutation(Response(true, RemovedMessage(application_id, tag_id)), links - {Link(application_id, tag_id)})
  }

  /** Assigning twice is assigning once: same report, same table. */
  lemma AssignIdempotent(links: LinkTable, a: int, t: int, now: Instant, later: Instant)
    ensures AssignTag(AssignTag(links, a, t, now).links, a, t, later) == AssignTag(links, a, t, now)
  {
  }

  /** Assigning a pair that is already linked succeeds and changes nothing. */
  lemma AssignExistingIsNoop(links: LinkTable, a: int, t: int, now: Instant)
    requires Link(a, t) in links && a != 0 && t != 0
    ensures AssignTag(links, a, t, now) == Mutation(Response(true, AssignedMessage(a, t)), links)
  {
  }

  /** Removing twice is removing once. */
  lemma RemoveIdempotent(links: LinkTable, a: int, t: int)
    ensures RemoveTag(RemoveTag(links, a, t).links, a, t) == RemoveTag(links, a, t)
  {
  }

  /** Removing a pair that is not linked succeeds and changes nothing. */
  lemma RemoveMissingIsNoop(links: LinkTable, a: int, t: int)
    requires Link(a, t) !in links && a != 0 && t != 0
    ensures RemoveTag(links, a, t) == Mutation(Response(true, RemovedMessage(a, t)), links)
  {
  }

  /** Links that share only the application or only the tag survive a removal. */
  lemma RemoveSparesPartialMatches(links: LinkTable, a: int, t: int, l: Link)
    requires l in links && (l.application_id != a || l.tag_id != t)
    ensures l in RemoveTag(links, a, t).links
  {
  }

  /** Removal undoes an assignment of a pair that was not linked before. */
  lemma AssignThenRemoveRestores(links: LinkTable, a: int, t: int, now: Instant)
    requires Link(a, t) !in links
    ensures RemoveTag(AssignTag(links, a, t, now).links, a, t).links == links
  {
  }

  /** Negative ids are not refused: both handlers succeed and the assignment links them. */
  lemma NegativeIdsAccepted(links: LinkTable, a: int, t: int, now: Instant)
    requires a < 0 && t < 0
    ensures AssignTag(links, a, t, now).response.success
    ensures Link(a, t) in AssignTag(links, a, t, now).links
    ensures RemoveTag(links, a, t).response.success
  {
  }

  /** What a message built as `x + (sep + y)` holds at each position up to the separator. */
  lemma MessageLayout(x: string, sep: string, y: string)
    requires |sep| > 0
    ensures (x + (sep + y))[|x|] == sep[0]
    ensures forall i :: 0 <= i < |x| ==> (x + (sep + y))[i] == x[i]
  {
  }

  /** Two strings free of spaces, each followed by the same separator beginning with a
      space, are recovered from the concatenation. */
  lemma SplitAtSeparator(x1: string, y1: string, x2: string, y2: string, sep: string)
    requires |sep| > 0 && sep[0] == ' '
    requires forall i :: 0 <= i < |x1| ==> x1[i] != ' '
    requires forall i :: 0 <= i < |x2| ==> x2[i] != ' '
    requires x1 + (sep + y1) == x2 + (sep + y2)
    ensures x1 == x2 && y1 == y2
  {
    var m := x1 + (sep + y1);
    MessageLayout(x1, sep, y1);
    MessageLayout(x2, sep, y2);
    assert |x1| == |x2|;
    assert x1 == m[..|x1|] && x2 == m[..|x2|];
    assert sep + y1 == m[|x1|..] == sep + y2;
    assert y1 == (sep + y1)[|sep|..] && y2 == (sep + y2)[|sep|..];
  }

  /** Equal strings with a common prefix agree after it. */
  lemma StripPrefix(p: string, x: string, y: string)
    requires p + x == p + y
    ensures x == y
  {
    assert x == (p + x)[|p|..];
    assert y == (p + y)[|p|..];
  }

  /** A message "Tag <t><sep><a>" determines both t and a. */
  lemma MessageDeterminesIds(sep: string, a1: int, t1: int, a2: int, t2: int)
    requires |sep| > 0 && sep[0] == ' '
    requires "Tag " + (IntToDecimal(t1) + (sep + IntToDecimal(a1))) == "Tag " + (IntToDecimal(t2) + (sep + IntToDecimal(a2)))
    ensures a1 == a2 && t1 == t2
  {
    StripPrefix("Tag ", IntToDecimal(t1) + (sep + IntToDecimal(a1)), IntToDecimal(t2) + (sep + IntToDecimal(a2)));
    SplitAtSeparator(IntToDecimal(t1), IntToDecimal(a1), IntToDecimal(t2), IntToDecimal(a2), sep);
    IntToDecimalInjective(t1, t2);
    IntToDecimalInjective(a1, a2);
  }

  /** Both ids can be read back from an assignment message. */
  lemma AssignedMessageNamesBothIds(a1: int, t1: int, a2: int, t2: int)
    requires AssignedMessage(a1, t1) == AssignedMessage(a2, t2)
    ensures a1 == a2 && t1 == t2
  {
    MessageDeterminesIds(AssignedSeparator, a1, t1, a2, t2);
  }

  /** Both ids can be read back from a removal message. */
  lemma RemovedMessageNamesBothIds(a1: int, t1: int, a2: int, t2: int)
    requires RemovedMessage(a1, t1) == RemovedMessage(a2, t2)
    ensures a1 == a2 && t1 == t2
  {
    MessageDeterminesIds(RemovedSeparator, a1, t1, a2, t2);
  }
}

=== FILE: top_contributors.dfy ===
/** `getTopContributors` (server/src/handlers/get_top_contributors.ts): choose the
    contributor list for the grouping, then keep its first `limit` entries. Spend is in
    cents and the share of the total in tenths of a percent. */
module TopContributors {
  import opened Schema

  datatype Contributor = Contributor(name: string, spend: int, percentage: int)

  const AppContributors: seq<Contributor> := [
    Contributor("ML Training Pipeline", 450000, 292),
    Contributor("Data Processing Jobs", 320000, 207),
    Contributor("Analytics Dashboard", 280000, 181),
    Contributor("ETL Workflows", 210000, 136),
    Contributor("Real-time Streaming", 190000, 123)
  ]

  const CreatorContributors: seq<Contributor> := [
    Contributor("data-team@company.com", 620000, 402),
    Contributor("ml-team@company.com", 480000, 311),
    Contributor("analytics@company.com", 290000, 188),
    Contributor("devops@company.com", 110000, 71),
    Contributor("research@company.com", 43000, 28)
  ]

  /** Each neighbour spends at least as much as the next one. */
  predicate AdjacentNonIncreasing(xs: seq<Contributor>) {
    forall i :: 0 < i < |xs| ==> xs[i - 1].spend >= xs[i].spend
  }

  /** Every earlier entry spends at least as much as every later one. */
  predicate NonIncreasing(xs: seq<Contributor>) {
    forall i, j :: 0 <= i < j < |xs| ==> xs[i].spend >= xs[j].spend
  }

  lemma {:induction false} AdjacentOrderIsTotal(xs: seq<Contributor>)
    requires AdjacentNonIncreasing(xs)
    ensures NonIncreasing(xs)
  {
    if |xs| > 1 {
      var init := xs[..|xs| - 1];
      assert AdjacentNonIncreasing(init);
      AdjacentOrderIsTotal(init);
      forall i | 0 <= i < |xs| - 1
        ensures xs[i].spend >= xs[|xs| - 1].spend
      {
        assert init[i] == xs[i];
        if i < |xs| - 2 {
          assert init[i].spend >= init[|xs| - 2].spend;
        }
      }
    }
  }

  /** The list chosen for a grouping: five entries for `app` and for `creator`, none for
      `tag`, ordered by spend. */
  function GroupList(g: GroupBy): (xs: seq<Contributor>)
    ensures g == ByTag <==> xs == []
    ensures g != ByTag ==> |xs| == 5
    ensures NonIncreasing(xs)
  {
    match g
    case ByApp => AdjacentOrderIsTotal(AppContributors); AppContributors
    case ByCreator => AdjacentOrderIsTotal(CreatorContributors); CreatorContributors
    case ByTag => []
  }

  /** `xs.slice(0, end)`: a negative end counts back from the end of the array, an end past
      the array stops at its length. */
  function SlicePrefix<T>(xs: seq<T>, end: int): (r: seq<T>)
    ensures r <= xs
    ensures 0 <= end ==> |r| == if end < |xs| then end else |xs|
    ensures end < 0 ==> |r| == if |xs| + end < 0 then 0 else |xs| + end
  {
    var k := if end < 0 then (if |xs| + end < 0 then 0 else |xs| + end)
             else if end < |xs| then end else |xs|;
    xs[..k]
  }

  /** The handler. `filters` is accepted and not consulted. */
  function GetTopContributors(input: GetTopContributorsInput): (r: seq<Contributor>)
    ensures r <= GroupList(input.group_by)
    ensures input.limit >= 0 ==> |r| == if input.limit < |GroupList(input.group_by)| then input.limit else |GroupList(input.group_by)|
    ensures input.group_by == ByTag ==> r == []
    ensures NonIncreasing(r)
  {
    SlicePrefix(GroupList(input.group_by), input.limit)
  }

  /** For `app` and `creator` the result has `min(limit, 5)` entries. */
  lemma ResultLength(input: GetTopContributorsInput)
    requires input.limit >= 1 && input.group_by != ByTag
    ensures |GetTopContributors(input)| == if input.limit < 5 then input.limit else 5
  {
  }

  /** A limit of five or more returns the whole list. */
  lemma LargeLimitReturnsAll(input: GetTopContributorsInput)
    requires input.limit >= 5
    ensures GetTopContributors(input) == GroupList(input.group_by)
  {
  }

  /** Truncating the result to the same limit again changes nothing. */
  lemma TruncationIdempotent(input: GetTopContributorsInput)
    requires input.limit >= 1
    ensures SlicePrefix(GetTopContributors(input), input.limit) == GetTopContributors(input)
  {
  }

  /** A larger limit extends the result without reordering it. */
  lemma ResultsNestByLimit(input: GetTopContributorsInput, more: int)
    requires 0 <= input.limit <= more
    ensures GetTopContributors(input) <= GetTopContributors(input.(limit := more))
  {
  }

  /** Filters have no influence on the ranking. */
  lemma FiltersIgnored(input: GetTopContributorsInput, filters: CostFilters)
    ensures GetTopContributors(input.(filters := filters)) == GetTopContributors(input)
  {
  }
}

=== FILE: untagged_applications.dfy ===
/** `getUntaggedApplications` (server/src/handlers/get_untagged_applications.ts): the
    applications that appear in no row of `application_tags`, in table order, each reduced
    to its id, name, creator and workspace. */
module UntaggedApplications {
  import opened Instants
  import opened Schema
  import opened TagLinks
  import opened Database

  datatype UntaggedApplication = UntaggedApplication(id: int, name: string, creator: string, workspace_id: string)

  function Summarize(a: Application): UntaggedApplication {
    UntaggedApplication(a.id, a.name, a.creator, a.workspace_id)
  }

  /** Ids of the applications that carry at least one tag. */
  function TaggedIds(links: LinkTable): set<int> {
    set l | l in links :: l.application_id
  }

  function Ids(apps: seq<Application>): set<int> {
    set a | a in apps :: a.id
  }

  /** Applications filtered, in order, to those with no link. */
  function GetUntaggedApplications(apps: seq<Application>, links: LinkTable): (r: seq<UntaggedApplication>)
    ensures |r| <= |apps|
    ensures forall i :: 0 <= i < |r| ==> r[i].id !in TaggedIds(links)
    ensures forall a :: a in apps && a.id !in TaggedIds(links) ==> Summarize(a) in r
    ensures forall u :: u in r ==> exists a :: a in apps && Summarize(a) == u
  {
    if |apps| == 0 then []
    else
      var rest := GetUntaggedApplications(apps[1..], links);
      if apps[0].id in TaggedIds(links) then rest else [Summarize(apps[0])] + rest
  }

  /** The result is a filter: splitting the table splits the result the same way, so the
      table's order is kept. */
  lemma {:induction false} UntaggedDistributes(xs: seq<Application>, ys: seq<Application>, links: LinkTable)
    ensures GetUntaggedApplications(xs + ys, links)
         == GetUntaggedApplications(xs, links) + GetUntaggedApplications(ys, links)
  {
    if |xs| > 0 {
      assert (xs + ys)[1..] == xs[1..] + ys;
      UntaggedDistributes(xs[1..], ys, links);
    } else {
      assert xs + ys == ys;
    }
  }

  /** An application of the table is reported exactly when it has no link. */
  lemma UntaggedMembership(apps: seq<Application>, links: LinkTable, a: Application)
    requires a in apps
    ensures Summarize(a) in GetUntaggedApplications(apps, links) <==> a.id !in TaggedIds(links)
  {
  }

  /** Set algebra: the reported ids are all application ids minus the tagged ones. */
  lemma UntaggedIdsAreDifference(apps: seq<Application>, links: LinkTable)
    ensures (set u | u in GetUntaggedApplications(apps, links) :: u.id) == Ids(apps) - TaggedIds(links)
  {
    var r := GetUntaggedApplications(apps, links);
    forall id | id in Ids(apps) - TaggedIds(links)
      ensures id in (set u | u in r :: u.id)
    {
      var a :| a in apps && a.id == id;
      assert Summarize(a) in r;
    }
    forall u | u in r
      ensures u.id in Ids(apps) - TaggedIds(links)
    {
      var i :| 0 <= i < |r| && r[i] == u;
      var a :| a in apps && Summarize(a) == u;
    }
  }

  /** A successful assignment takes exactly that application out of the untagged list. */
  lemma AssignTagsTheApplication(apps: seq<Application>, links: LinkTable, app: int, tag: int, now: Instant, b: Application)
    requires AssignTag(links, app, tag, now).response.success
    requires b in apps
    ensures b.id == app ==> Summarize(b) !in GetUntaggedApplications(apps, AssignTag(links, app, tag, now).links)
    ensures b.id != app ==> (Summarize(b) in GetUntaggedApplications(apps, AssignTag(links, app, tag, now).links)
                             <==> Summarize(b) in GetUntaggedApplications(apps, links))
  {
  }

  /** `apps` lists exactly the rows of the applications table, in some order. */
  predicate ListsTable(apps: seq<Application>, db: Db) {
    && (forall a :: a in apps ==> a.id in db.applications && db.applications[a.id] == a)
    && (forall k :: k in db.applications ==> db.applications[k] in apps)
  }

  /** Over a valid database, the untagged ids are the application table's keys minus the
      applications named by some link, and every linked id is an application. */
  lemma UntaggedOfDatabase(db: Db, apps: seq<Application>)
    requires Valid(db) && ListsTable(apps, db)
    ensures TaggedIds(db.application_tags) <= db.applications.Keys
    ensures (set u | u in GetUntaggedApplications(apps, db.application_tags) :: u.id)
         == db.applications.Keys - TaggedIds(db.application_tags)
  {
    UntaggedIdsAreDifference(apps, db.application_tags);
    forall k | k in db.applications.Keys
      ensures k in Ids(apps)
    {
      assert db.applications[k] in apps && db.applications[k].id == k;
    }
  }
}

=== FILE: wrappers.dfy ===
/** Optional values and validation outcomes shared by every module of the model. */
module Wrappers {

  /** A value that may be absent (a TypeScript `T | undefined` after defaulting, or `T | null`). */
  datatype Option<+T> = None | Some(value: T) {
    function GetOr(default: T): T {
      match this
      case Some(v) => v
      case None => default
    }
  }

  /** The outcome of a schema parse or of a storage operation that may be refused. */
  datatype Result<+T, +E> = Ok(value: T) | Err(error: E)

  /** A field of an input object as the schema library sees it: left out (`undefined`),
      explicitly `null`, or carrying a value. */
  datatype Field<+T> = Absent | Null | Present(value: T)
}
